=== FILE: README.md ===
# SensiFire node: a Dafny model of the monitoring firmware core

SensiFire is a Raspberry Pi Pico W node that samples a gas sensor and an NTC
thermistor through voltage dividers, turns the samples into a gas-sensor
resistance (used as the CO value) and a temperature, drives an alarm LED
(`LED_1`), a "safe" status LED (`LED_2`) and a buzzer from a two-threshold
decision, and publishes the readings over MQTT, reconnecting when the
session's `conn_state` is clear.

This project models, in `Firmware/SensiFire_Final_Code.c`:

- `config.dfy` (`Config`): the build-time constants (calibration, thresholds,
  pins, broker, topic, publish QoS and retain flag, cycle pause).
- `conversion.dfy` (`Conversion`): the divider arithmetic of
  `leer_sensor_gas` and `leer_sensor_temperatura` over mathematical reals,
  and the Beta equation with the logarithm left uninterpreted (a parameter
  `ln`).
- `alarm.dfy` (`Alarm`): `manejar_alarma` as the pure decision `Evaluate`,
  the actuator mapping `Apply` and the GPIO writes `HandleAlarm`, plus the
  power-on pin levels of `inicializar_hardware`.
- `address.dfy` (`Address`): the broker-address check `ip4addr_aton`, as a
  parser of decimal dotted quads.
- `monitor.dfy` (`Monitor`): `conectar_mqtt`, the power-on sequence of
  `main`, one iteration of the main loop, and the loop over any finite
  number of iterations. What the network, the ADC and the MQTT library
  answer is an input of each cycle; what the firmware asks of them is a
  trace of effects in program order.

Modelling choices:

- C doubles are idealised as Dafny `real`: no rounding, no infinities, no NaN.
- The firmware does not guard an ADC sample of 0, where both divider
  formulas divide by zero, nor a thermistor sample of `ADC_MAX`, where the
  resistance is 0 and `log` is out of domain. The model makes `adc >= 1`
  (and `adc <= ADC_MAX - 1` for the temperature) a precondition instead of
  inventing a fallback.
- Both divider formulas reduce to `40950 / adc - 10`; the thermistor and gas
  resistances are equal for equal samples (`ThermistorMatchesGasDivider`).
- The broker setting `"broker.hivemq.com"` is a host name, so the address
  check in `conectar_mqtt` always fails: as written, the node never attempts
  a connection, never becomes connected, and creates a new client on every
  cycle (`ShippedBrokerNeverConnects`). The model reproduces this.

## Model

| member | source | states |
|---|---|---|
| Conversion.GasResistance | Firmware/SensiFire_Final_Code.c:63-68 | gas-sensor resistance equals RL*ADC_MAX/adc - RL, is non-negative, and is zero exactly at full scale |
| Conversion.ThermistorResistance | Firmware/SensiFire_Final_Code.c:70-73 | thermistor resistance equals 10*(ADC_MAX-adc)/adc; positive below full scale, zero exactly at full scale |
| Conversion.DividerClosedForm | Firmware/SensiFire_Final_Code.c:66-73 | both divider expressions, evaluated in the firmware's operation order, reduce to 40950/adc - 10 |
| Conversion.ThermistorMatchesGasDivider | Firmware/SensiFire_Final_Code.c:66-73 | the two dividers give the same resistance for the same sample |
| Conversion.GasResistanceDecreasing | Firmware/SensiFire_Final_Code.c:66 | gas resistance strictly decreases as the sample grows |
| Conversion.ThermistorResistanceDecreasing | Firmware/SensiFire_Final_Code.c:73 | thermistor resistance strictly decreases as the sample grows |
| Conversion.GasAlarmIffSampleAtMost2047 | Firmware/SensiFire_Final_Code.c:66 | the gas reading exceeds the CO threshold exactly for samples 1 to 2047 |
| Conversion.SampleFor | Firmware/SensiFire_Final_Code.c:66 | the inverse divider relation maps every non-negative resistance to a sample in (0, ADC_MAX] |
| Conversion.SampleForInvertsGasResistance | Firmware/SensiFire_Final_Code.c:66 | converting a sample to a resistance and back gives the sample |
| Conversion.GasResistanceInvertsSampleFor | Firmware/SensiFire_Final_Code.c:66 | a sample obtained from a resistance converts back to that resistance |
| Conversion.BetaTemperature | Firmware/SensiFire_Final_Code.c:74-75 | the temperature solves the Beta equation 1/T = 1/T0 + ln(R/R0)/BETA, with T in kelvin offset by 273.15 |
| Conversion.Temperature | Firmware/SensiFire_Final_Code.c:70-76 | the temperature read from a sample below full scale solves the Beta equation for that sample's resistance |
| Conversion.NominalResistanceReadsNominalTemperature | Firmware/SensiFire_Final_Code.c:74-75 | at resistance R0 the reading is 25.0 degrees Celsius |
| Conversion.BetaTemperatureDecreasing | Firmware/SensiFire_Final_Code.c:75 | with an increasing logarithm, a larger resistance reads as a lower temperature (NTC behaviour) |
| Conversion.TemperatureIncreasing | Firmware/SensiFire_Final_Code.c:73-75 | with an increasing logarithm, a larger thermistor sample reads as a higher temperature |
| Alarm.Evaluate | Firmware/SensiFire_Final_Code.c:79 | the state is SAFE exactly when temperature <= 40.0 and CO <= 10.0 (both comparisons strict for ALARM) |
| Alarm.Apply | Firmware/SensiFire_Final_Code.c:80-87 | in both configurations LED_1 differs from LED_2 and the buzzer follows LED_1; LED_1 is on exactly in ALARM |
| Alarm.Decode | Firmware/SensiFire_Final_Code.c:80-87 | pin levels decode to a state exactly when LED_1 differs from LED_2 and the buzzer follows LED_1 |
| Alarm.DecodeApply | Firmware/SensiFire_Final_Code.c:80-87 | the actuator levels determine the alarm state they were driven with |
| Alarm.ApplyDecode | Firmware/SensiFire_Final_Code.c:80-87 | every decodable actuator configuration is the one its state drives |
| Alarm.ApplyInjective | Firmware/SensiFire_Final_Code.c:80-87 | the two states drive different actuator configurations |
| Alarm.InitHardware | Firmware/SensiFire_Final_Code.c:50-60 | power-on writes leave the actuators in the SAFE configuration and touch no other pin |
| Alarm.InitIsSafe | Firmware/SensiFire_Final_Code.c:52-60 | the power-on actuator levels decode to SAFE |
| Alarm.HandleAlarm | Firmware/SensiFire_Final_Code.c:78-90 | the handler as written drives the actuators to Apply(Evaluate(temp, co)) and leaves every other pin unchanged |
| Alarm.HandleAlarmConsistent | Firmware/SensiFire_Final_Code.c:78-90 | after every call LED_1 differs from LED_2 and the buzzer equals LED_1 |
| Alarm.HandleAlarmIdempotent | Firmware/SensiFire_Final_Code.c:78-90 | handling the same reading twice gives the same pins as handling it once |
| Alarm.HandleAlarmForgetsPriorState | Firmware/SensiFire_Final_Code.c:78-90 | the actuator levels after the handler do not depend on the levels before it |
| Alarm.AtThresholdsIsSafe | Firmware/SensiFire_Final_Code.c:25-26 | temperature 40.0 with CO 10.0 is SAFE and drives LED_1=0, LED_2=1, BUZZER=0 |
| Alarm.AboveEitherThresholdIsAlarm | Firmware/SensiFire_Final_Code.c:79 | any amount above either threshold is ALARM, whatever the other reading, and drives LED_1=1, LED_2=0, BUZZER=1 |
| Alarm.AlarmUpwardClosed | Firmware/SensiFire_Final_Code.c:79 | raising either reading never clears an alarm |
| Address.SplitDots | Firmware/SensiFire_Final_Code.c:95 | splitting at dots yields dot-free fields that join back to the input |
| Address.ParseOctet | Firmware/SensiFire_Final_Code.c:95 | an accepted field is a non-empty run of digits of value at most 255 |
| Address.Ip4AddrAton | Firmware/SensiFire_Final_Code.c:95 | an accepted broker string consists of digits and exactly three separating dots, and its octets are at most 255 |
| Address.ParsesDottedQuad | Firmware/SensiFire_Final_Code.c:95 | four decimal fields of value at most 255 joined with dots are accepted as that address |
| Address.HostNameRejected | Firmware/SensiFire_Final_Code.c:95-97 | a string whose first character is not a decimal digit is not an address |
| Monitor.ConnectMqtt | Firmware/SensiFire_Final_Code.c:92-106 | always replaces the held client with a new one; attempts a connection on port 1883 exactly when the broker string is an address; the new client is connected exactly when that attempt succeeds |
| Monitor.ShippedBrokerIsNotAnAddress | Firmware/SensiFire_Final_Code.c:12 | the shipped broker setting fails the address check |
| Monitor.Boot | Firmware/SensiFire_Final_Code.c:119-136 | after power-on a client is held and the actuators show SAFE |
| Monitor.Reconnect | Firmware/SensiFire_Final_Code.c:139-142 | the connect routine runs exactly when the held client's flag is clear at the top of the cycle; otherwise the client is kept; the client is connected afterwards exactly when it was alive or the address parsed and the connect succeeded |
| Monitor.Cycle | Firmware/SensiFire_Final_Code.c:138-150 | reconnects exactly when not alive, then reads temperature, reads gas, actuates Apply(Evaluate(...)), publishes both readings on the client then held with QoS 1 and retain 0, and pauses 1000 ms; afterwards the client is connected exactly when it was alive or the address parsed and the connect succeeded |
| Monitor.CyclePreservesInvariant | Firmware/SensiFire_Final_Code.c:138-150 | a cycle keeps a client held, keeps it the most recently created one, and keeps the actuators consistent |
| Monitor.NextCycleAliveAfterReconnect | Firmware/SensiFire_Final_Code.c:139-142 | after a cycle that found the session dead, the next cycle finds it alive exactly when the address parsed, the connect succeeded and no drop intervened; a failed connect is retried on the next cycle |
| Monitor.LiveSessionKept | Firmware/SensiFire_Final_Code.c:139-142 | a live session is kept into the next cycle exactly when it is not dropped |
| Monitor.ActuationIndependentOfNetwork | Firmware/SensiFire_Final_Code.c:139-147 | actuator levels after a cycle depend only on the samples, not on session liveness or connect or publish outcomes |
| Monitor.PublishOutcomeDoesNotAffectState | Firmware/SensiFire_Final_Code.c:108-117 | a failed publish changes nothing in the node's state |
| Monitor.Run | Firmware/SensiFire_Final_Code.c:138-150 | any number of cycles keeps the loop invariant |
| Monitor.ShippedBrokerCycle | Firmware/SensiFire_Final_Code.c:139-142 | with the shipped broker setting, a cycle from an unconnected client attempts no connect, leaves the client unconnected and creates exactly one new client |
| Monitor.ShippedBrokerNeverConnects | Firmware/SensiFire_Final_Code.c:12 | with the shipped broker setting no cycle attempts a connect, the client is never connected, and each cycle creates one new client |
| Monitor.ShippedFirmwareNeverConnects | Firmware/SensiFire_Final_Code.c:119-150 | from power-on, with the shipped broker setting, neither the boot nor any cycle attempts a connect |

## Left out

- Wi-Fi bring-up and its credentials (lines 122-133): driver I/O with early exits and no logic to state.
- The MQTT client library: `mqtt_client_new`, `mqtt_client_connect` and `mqtt_publish` are outside the model; their results are cycle inputs. Allocation failure of `mqtt_client_new` (a NULL client) is not modelled: a new client always exists. Publish outcomes are independent inputs: lwIP refuses to publish on a client whose `conn_state` is clear, so with the shipped broker setting no reading is ever delivered, but the model still admits a successful publish on a client that never connected; no proof depends on this.
- `conn_state` is reduced to a flag: clear for a new client, set by a successful connect call, cleared by a drop between cycles (the `dropped` input). The library's asynchronous connection stages are not modelled.
- Address.Ip4AddrAton: `ip4addr_aton` is lwIP code outside this model; the model covers its decimal dotted-quad form only, not the hexadecimal, octal or fewer-than-four-part forms. lwIP also accepts a dotted quad followed by whitespace and anything after it ("1.2.3.4 x"); the model rejects every trailing character. It agrees with lwIP on what the loop relies on: a string whose first character is not a decimal digit is rejected.
- Address.ParseOctet: fields are read as unbounded decimal numbers. lwIP reads multi-digit fields with a leading `0` as octal (it reads "010" as 8 and rejects "09"), and it accumulates each field in a 32-bit unsigned integer that wraps, so it accepts "4294967297.0.0.1" as 1.0.0.1; the model reads "010" as 10, accepts "09" as 9, and rejects the wrapped field.
- Payload rendering with `snprintf` and `%.2f` into the 128-byte buffer: the payload is kept as the two reals it carries, with the fixed topic, QoS 1 and retain 0.
- The natural logarithm and the numerics of the Beta equation: `ln` is a parameter, never evaluated.
- IEEE-754 double semantics: the model computes over exact reals, so rounding, infinities and NaN are not represented.
- Conversion.GasResistance: requires `adc >= 1`; the firmware divides by zero at 0 (an infinite value in doubles) and the model does not represent that result.
- Conversion.Temperature: requires `adc <= ADC_MAX - 1` and a nonzero Beta denominator, because the firmware takes `log(0)` at full scale and `ln` is abstract.
- Monitor.Cycle: requires convertible samples (see the two lines above), so the cycle's behaviour on samples 0 and full scale is not modelled.
- ADC channel selection and GPIO direction set-up (`adc_select_input`, `adc_gpio_init`, `gpio_init`, `gpio_set_dir`): hardware configuration with no observable logic.
- Console output (`printf`) and the timing of `sleep_ms`: diagnostics and timing; the pause is only recorded as an effect.
- The memory leak of the replaced clients: an allocation concern; the model shows only that the handle is replaced.

=== FILE: address.dfy ===
/**
 * The broker-address check of the MQTT connect routine: lwIP's
 * `ip4addr_aton`, modelled as a parser of decimal dotted quads. A string
 * is an address only if it is four dot-separated runs of decimal digits,
 * each at most 255.
 */
module Address {
  import opened Wrappers

  datatype Ip4 = Ip4(a: nat, b: nat, c: nat, d: nat)

  predicate IsDigit(ch: char)
  {
    '0' <= ch <= '9'
  }

  predicate AllDigits(s: string)
  {
    forall i :: 0 <= i < |s| ==> IsDigit(s[i])
  }

  /** Every character is a decimal digit or a dot. */
  predicate DigitsAndDots(s: string)
  {
    forall i :: 0 <= i < |s| ==> IsDigit(s[i]) || s[i] == '.'
  }

  predicate NoDot(s: string)
  {
    forall i :: 0 <= i < |s| ==> s[i] != '.'
  }

  /** Glues fields back together with a dot between neighbours. */
  function Join(parts: seq<string>): string
    requires |parts| >= 1
  {
    if |parts| == 1 then parts[0] else parts[0] + "." + Join(parts[1..])
  }

  /** Position of the first dot, or the length when there is none. */
  function FirstDot(s: string): (i: nat)
    ensures i <= |s|
    ensures NoDot(s[..i])
    ensures i < |s| ==> s[i] == '.'
    decreases |s|
  {
    if |s| == 0 || s[0] == '.' then 0
    else
      var k := 1 + FirstDot(s[1..]);
      assert s[..k] == [s[0]] + s[1..][..k - 1];
      k
  }

  /** Splits a string at every dot; the fields contain no dot and join back to the string. */
  function SplitDots(s: string): (parts: seq<string>)
    ensures |parts| >= 1
    ensures Join(parts) == s
    ensures forall k :: 0 <= k < |parts| ==> NoDot(parts[k])
    decreases |s|
  {
    var i := FirstDot(s);
    if i == |s| then
      assert s[..i] == s;
      [s]
    else
      var rest := SplitDots(s[i + 1..]);
      var parts := [s[..i]] + rest;
      assert parts[1..] == rest;
      assert s == s[..i] + "." + s[i + 1..];
      parts
  }

  /** Value of a run of decimal digits. */
  function DecimalValue(s: string): nat
    requires AllDigits(s)
  {
    if |s| == 0 then 0
    else 10 * DecimalValue(s[..|s| - 1]) + (s[|s| - 1] as int - '0' as int)
  }

  /** One address field: a non-empty run of digits whose value fits an octet. */
  function ParseOctet(s: string): (r: Option<nat>)
    ensures r.Some? ==> |s| > 0 && AllDigits(s) && r.value <= 255
  {
    if |s| == 0 || !AllDigits(s) then None
    else if DecimalValue(s) > 255 then None
    else Some(DecimalValue(s))
  }

  /** Joining fields made of digits only gives a string of digits and dots. */
  lemma {:induction false} JoinDigitsAndDots(parts: seq<string>)
    requires |parts| >= 1
    requires forall k :: 0 <= k < |parts| ==> AllDigits(parts[k])
    ensures DigitsAndDots(Join(parts))
  {
    if |parts| > 1 {
      JoinDigitsAndDots(parts[1..]);
      var tail := Join(parts[1..]);
      var s := parts[0] + "." + tail;
      forall i | 0 <= i < |s|
        ensures IsDigit(s[i]) || s[i] == '.'
      {
        if i < |parts[0]| {
          assert s[i] == parts[0][i];
        } else if i > |parts[0]| {
          assert s[i] == tail[i - |parts[0]| - 1];
        }
      }
    }
  }

  /**
   * `ip4addr_aton` on a decimal dotted quad. A string it accepts consists
   * of digits and exactly three field separators; any other character, a
   * letter in particular, makes it fail.
   */
  function Ip4AddrAton(s: string): (r: Option<Ip4>)
    ensures r.Some? ==> DigitsAndDots(s) && |SplitDots(s)| == 4
    ensures r.Some? ==> r.value.a <= 255 && r.value.b <= 255 && r.value.c <= 255 && r.value.d <= 255
  {
    var parts := SplitDots(s);
    if |parts| != 4 then None
    else
      match (ParseOctet(parts[0]), ParseOctet(parts[1]), ParseOctet(parts[2]), ParseOctet(parts[3]))
      case (Some(a), Some(b), Some(c), Some(d)) =>
        JoinDigitsAndDots(parts);
        Some(Ip4(a, b, c, d))
      case _ => None
  }

  /** The first dot of a dot-free prefix followed by a dot (or nothing) is right after the prefix. */
  lemma {:induction false} FirstDotAfterPrefix(p: string, t: string)
    requires NoDot(p)
    requires |t| == 0 || t[0] == '.'
    ensures FirstDot(p + t) == |p|
    decreases |p|
  {
    if |p| > 0 {
      var s := p + t;
      assert s[0] == p[0] && s[1..] == p[1..] + t;
      FirstDotAfterPrefix(p[1..], t);
    } else {
      assert p + t == t;
    }
  }

  /** A dot-free field followed by a dot splits off as the first field. */
  lemma SplitAtFirstDot(p: string, tail: string)
    requires NoDot(p)
    ensures SplitDots(p + "." + tail) == [p] + SplitDots(tail)
  {
    var s := p + "." + tail;
    assert s == p + ("." + tail);
    FirstDotAfterPrefix(p, "." + tail);
    assert s[..|p|] == p;
    assert s[|p| + 1..] == tail;
  }

  /** Splitting undoes joining, for fields without dots. */
  lemma {:induction false} SplitJoin(parts: seq<string>)
    requires |parts| >= 1
    requires forall k :: 0 <= k < |parts| ==> NoDot(parts[k])
    ensures SplitDots(Join(parts)) == parts
  {
    if |parts| == 1 {
      FirstDotAfterPrefix(parts[0], "");
      assert parts[0] + "" == parts[0];
    } else {
      SplitJoin(parts[1..]);
      SplitAtFirstDot(parts[0], Join(parts[1..]));
      assert [parts[0]] + parts[1..] == parts;
    }
  }

  /** Four decimal fields, each at most 255, joined with dots are accepted as that address. */
  lemma ParsesDottedQuad(p0: string, p1: string, p2: string, p3: string)
    requires forall p :: p in [p0, p1, p2, p3] ==> |p| > 0 && AllDigits(p) && DecimalValue(p) <= 255
    ensures Ip4AddrAton(Join([p0, p1, p2, p3])) ==
      Some(Ip4(DecimalValue(p0), DecimalValue(p1), DecimalValue(p2), DecimalValue(p3)))
  {
    var parts := [p0, p1, p2, p3];
    forall k | 0 <= k < 4
      ensures NoDot(parts[k])
    {
      assert parts[k] in parts;
    }
    SplitJoin(parts);
  }

  /** A string whose first character is not a decimal digit, a host name in particular, is not an address. */
  lemma HostNameRejected(s: string)
    requires |s| > 0 && !IsDigit(s[0])
    ensures Ip4AddrAton(s) == None
  {
  }
}

=== FILE: alarm.dfy ===
/**
 * The alarm evaluator and the actuator driver: a strict two-threshold
 * decision on (temperature, CO value), the fixed mapping of the decision to
 * the alarm LED, the status LED and the buzzer, and the GPIO writes that the
 * alarm handler and the hardware initialisation perform.
 */
module Alarm {
  import opened Config
  import opened Wrappers

  datatype AlarmState = Safe | Alarm

  /** A digital output level as passed to the GPIO driver. */
  type Level = x: int | 0 <= x <= 1

  /** Levels of the three actuators: alarm LED, status ("safe") LED, buzzer. */
  datatype Outputs = Outputs(led1: Level, led2: Level, buzzer: Level)

  /** Output levels of the GPIO bank, by pin number. */
  type Pins = map<int, Level>

  predicate IsActuatorPin(pin: int)
  {
    pin == LED_1 || pin == LED_2 || pin == BUZZER
  }

  /**
   * The decision: SAFE exactly when both readings are at or below their
   * thresholds, so a reading equal to a threshold is still SAFE.
   */
  function Evaluate(temp: real, co: real): (s: AlarmState)
    ensures s == Safe <==> temp <= MAX_TEMP_LIMIT && co <= MIN_CO_DETECTION
  {
    if co > MIN_CO_DETECTION || temp > MAX_TEMP_LIMIT then Alarm else Safe
  }

  /** The two LEDs show opposite levels and the buzzer follows the alarm LED. */
  predicate Coherent(o: Outputs)
  {
    o.led1 != o.led2 && o.buzzer == o.led1
  }

  /** The actuator mapping: ALARM lights LED_1 and sounds the buzzer, SAFE lights LED_2 only. */
  function Apply(s: AlarmState): (o: Outputs)
    ensures Coherent(o)
    ensures o.led1 == 1 <==> s == Alarm
  {
    match s
    case Alarm => Outputs(1, 0, 1)
    case Safe => Outputs(0, 1, 0)
  }

  /** Reads the alarm state back off the actuators; `None` for a combination `Apply` never produces. */
  function Decode(o: Outputs): (s: Option<AlarmState>)
    ensures s.Some? <==> Coherent(o)
  {
    if o == Outputs(1, 0, 1) then Some(Alarm)
    else if o == Outputs(0, 1, 0) then Some(Safe)
    else None
  }

  /** The actuator outputs determine the alarm state they were driven with. */
  lemma DecodeApply(s: AlarmState)
    ensures Decode(Apply(s)) == Some(s)
  {
  }

  lemma ApplyDecode(o: Outputs)
    requires Decode(o).Some?
    ensures Apply(Decode(o).value) == o
  {
  }

  lemma ApplyInjective(s1: AlarmState, s2: AlarmState)
    ensures Apply(s1) == Apply(s2) <==> s1 == s2
  {
    DecodeApply(s1);
    DecodeApply(s2);
  }

  /** The levels of the three actuator pins, once all three have been written. */
  function ReadOutputs(pins: Pins): Outputs
    requires LED_1 in pins && LED_2 in pins && BUZZER in pins
  {
    Outputs(pins[LED_1], pins[LED_2], pins[BUZZER])
  }

  /** One `gpio_put`. */
  function Put(pins: Pins, pin: int, level: Level): Pins
  {
    pins[pin := level]
  }

  /** The three actuators have been written and form one of the two configurations `Apply` produces. */
  predicate Consistent(pins: Pins)
  {
    && LED_1 in pins && LED_2 in pins && BUZZER in pins
    && Coherent(ReadOutputs(pins))
  }

  /**
   * Output writes of the hardware initialisation: BUZZER low, LED_1 low,
   * LED_2 high, in that order; every other pin keeps its level.
   */
  function InitHardware(pins: Pins): (p: Pins)
    ensures p.Keys == pins.Keys + {LED_1, LED_2, BUZZER}
    ensures ReadOutputs(p) == Apply(Safe)
    ensures Consistent(p)
    ensures forall pin :: pin in pins && !IsActuatorPin(pin) ==> p[pin] == pins[pin]
  {
    Put(Put(Put(pins, BUZZER, 0), LED_1, 0), LED_2, 1)
  }

  /**
   * The alarm handler as written: one branch on the strict threshold test,
   * each branch writing LED_1, LED_2 and BUZZER in that order. The result
   * is the actuator mapping of the evaluated state, and no other pin moves.
   */
  function HandleAlarm(pins: Pins, temp: real, co: real): (p: Pins)
    ensures p.Keys == pins.Keys + {LED_1, LED_2, BUZZER}
    ensures ReadOutputs(p) == Apply(Evaluate(temp, co))
    ensures forall pin :: pin in pins && !IsActuatorPin(pin) ==> p[pin] == pins[pin]
  {
    if co > MIN_CO_DETECTION || temp > MAX_TEMP_LIMIT then
      Put(Put(Put(pins, LED_1, 1), LED_2, 0), BUZZER, 1)
    else
      Put(Put(Put(pins, LED_1, 0), LED_2, 1), BUZZER, 0)
  }

  /** After every call of the handler LED_1 and LED_2 differ and the buzzer follows LED_1. */
  lemma HandleAlarmConsistent(pins: Pins, temp: real, co: real)
    ensures Consistent(HandleAlarm(pins, temp, co))
  {
    var p := HandleAlarm(pins, temp, co);
    assert ReadOutputs(p) == Apply(Evaluate(temp, co));
  }

  /** The power-on output state is the SAFE configuration. */
  lemma InitIsSafe(pins: Pins)
    ensures Decode(ReadOutputs(InitHardware(pins))) == Some(Safe)
  {
    DecodeApply(Safe);
  }

  /** Handling a reading twice leaves the pins as handling it once. */
  lemma HandleAlarmIdempotent(pins: Pins, temp: real, co: real)
    ensures HandleAlarm(HandleAlarm(pins, temp, co), temp, co) == HandleAlarm(pins, temp, co)
  {
  }

  /** The actuator levels after the handler depend on the reading only, never on the prior pins. */
  lemma HandleAlarmForgetsPriorState(p1: Pins, p2: Pins, temp: real, co: real)
    ensures ReadOutputs(HandleAlarm(p1, temp, co)) == ReadOutputs(HandleAlarm(p2, temp, co))
  {
  }

  /** Both thresholds are strict: a reading exactly at both of them is SAFE. */
  lemma AtThresholdsIsSafe()
    ensures Evaluate(MAX_TEMP_LIMIT, MIN_CO_DETECTION) == Safe
    ensures Apply(Evaluate(MAX_TEMP_LIMIT, MIN_CO_DETECTION)) == Outputs(0, 1, 0)
  {
  }

  /** Exceeding either threshold by any amount raises the alarm, whatever the other reading. */
  lemma AboveEitherThresholdIsAlarm(temp: real, co: real, eps: real)
    requires eps > 0.0
    ensures Evaluate(MAX_TEMP_LIMIT + eps, co) == Alarm
    ensures Evaluate(temp, MIN_CO_DETECTION + eps) == Alarm
    ensures Apply(Evaluate(MAX_TEMP_LIMIT + eps, co)) == Outputs(1, 0, 1)
    ensures Apply(Evaluate(temp, MIN_CO_DETECTION + eps)) == Outputs(1, 0, 1)
  {
  }

  /** The alarm region is upward closed: raising either reading never clears an alarm. */
  lemma AlarmUpwardClosed(temp: real, co: real, temp': real, co': real)
    requires Evaluate(temp, co) == Alarm
    requires temp <= temp' && co <= co'
    ensures Evaluate(temp', co') == Alarm
  {
  }
}

=== FILE: config.dfy ===
/**
 * Build-time configuration of the SensiFire node: calibration constants,
 * thresholds, actuator pin numbers and the broker target. Nothing here is
 * changed at run time.
 */
module Config {

  /** Load resistor of the gas sensor divider (kilo-ohms). */
  const RL_VALUE: real := 10.0
  /** Supply voltage of both dividers (volts). */
  const VCC: real := 3.3
  /** Full-scale value of the 12-bit ADC. */
  const ADC_MAX: int := 4095

  /** Beta-equation parameters of the NTC thermistor. */
  const BETA: real := 3950.0
  const T0: real := 298.15
  const R0: real := 10.0
  /** Offset from kelvin to degrees Celsius. */
  const KELVIN_OFFSET: real := 273.15

  /** Actuator pins (active high). */
  const BUZZER: int := 14
  const LED_1: int := 4
  const LED_2: int := 5

  /** Alarm thresholds; both comparisons are strict. */
  const MIN_CO_DETECTION: real := 10.0
  const MAX_TEMP_LIMIT: real := 40.0

  /** Broker target and publish parameters. */
  const MQTT_BROKER_URL: string := "broker.hivemq.com"
  const MQTT_PORT: nat := 1883
  const MQTT_TOPIC: string := "environment/sensordata"
  const PUBLISH_QOS: nat := 1
  const PUBLISH_RETAIN: nat := 0

  /** Pause at the end of every monitoring cycle (milliseconds). */
  const CYCLE_SLEEP_MS: nat := 1000
}

=== FILE: conversion.dfy ===
/**
 * The unit converter: voltage-divider arithmetic that turns a raw ADC sample
 * into a gas-sensor resistance and into a thermistor resistance and
 * temperature. C doubles are idealised as mathematical reals; the natural
 * logarithm is not interpreted and is passed in as `ln`.
 */
module Conversion {
  import opened Config

  /** A raw ADC sample as `adc_read` returns it. */
  type AdcSample = x: int | 0 <= x <= ADC_MAX

  /** Voltage at the ADC pin for a sample, computed in the firmware's order. */
  function PinVoltage(adc: AdcSample): real
  {
    (adc as real) / (ADC_MAX as real) * VCC
  }

  /**
   * Gas-sensor resistance. A sample of 0 divides by zero in the firmware,
   * so it is excluded here. The result is non-negative, zero exactly at full
   * scale, and equals the closed form RL * ADC_MAX / adc - RL.
   */
  function GasResistance(adc: AdcSample): (rs: real)
    requires adc >= 1
    ensures rs == RL_VALUE * (ADC_MAX as real) / (adc as real) - RL_VALUE
    ensures rs >= 0.0
    ensures rs == 0.0 <==> adc == ADC_MAX
  {
    DividerClosedForm(adc);
    ((VCC * RL_VALUE) / PinVoltage(adc)) - RL_VALUE
  }

  /**
   * Thermistor resistance from the second divider (10 kilo-ohm reference).
   * Strictly positive below full scale and zero at full scale, where the
   * logarithm of the Beta equation is out of its domain.
   */
  function ThermistorResistance(adc: AdcSample): (r: real)
    requires adc >= 1
    ensures r == 10.0 * ((ADC_MAX - adc) as real) / (adc as real)
    ensures adc <= ADC_MAX - 1 ==> r > 0.0
    ensures r == 0.0 <==> adc == ADC_MAX
  {
    DividerClosedForm(adc);
    (10.0 * (VCC - PinVoltage(adc))) / PinVoltage(adc)
  }

  /** Both divider expressions reduce to 40950 / adc - 10. */
  lemma DividerClosedForm(adc: AdcSample)
    requires adc >= 1
    ensures (VCC * RL_VALUE) / PinVoltage(adc) - RL_VALUE == 40950.0 / (adc as real) - 10.0
    ensures (10.0 * (VCC - PinVoltage(adc))) / PinVoltage(adc) == 40950.0 / (adc as real) - 10.0
    ensures 40950.0 / (adc as real) - 10.0 == 10.0 * ((ADC_MAX - adc) as real) / (adc as real)
  {
    var a := adc as real;
    var v := PinVoltage(adc);
    assert v == a * 3.3 / 4095.0;
    assert v > 0.0;
    assert (VCC * RL_VALUE) / v == 33.0 / v;
    assert 33.0 / v == 40950.0 / a by {
      assert 33.0 == (40950.0 / a) * v;
    }
    assert (10.0 * (VCC - v)) / v == 33.0 / v - 10.0 by {
      assert 10.0 * (VCC - v) == 33.0 - 10.0 * v;
    }
  }

  /** The two dividers obey the same relation: for one sample they give the same resistance. */
  lemma ThermistorMatchesGasDivider(adc: AdcSample)
    requires adc >= 1
    ensures ThermistorResistance(adc) == GasResistance(adc)
  {
  }

  /** k / x > k / y for 0 < x < y and k > 0. */
  lemma DivisionDecreasing(k: real, x: real, y: real)
    requires k > 0.0 && 0.0 < x < y
    ensures k / x > k / y
  {
    assert k / x - k / y == k * (y - x) / (x * y);
    assert k * (y - x) > 0.0;
    assert x * y > 0.0;
  }

  /** A larger sample means a smaller gas-sensor resistance, over the whole valid range. */
  lemma GasResistanceDecreasing(a: AdcSample, b: AdcSample)
    requires 1 <= a < b
    ensures GasResistance(a) > GasResistance(b)
  {
    DivisionDecreasing(40950.0, a as real, b as real);
  }

  /** A larger sample means a smaller thermistor resistance, over the whole valid range. */
  lemma ThermistorResistanceDecreasing(a: AdcSample, b: AdcSample)
    requires 1 <= a < b
    ensures ThermistorResistance(a) > ThermistorResistance(b)
  {
    ThermistorMatchesGasDivider(a);
    ThermistorMatchesGasDivider(b);
    GasResistanceDecreasing(a, b);
  }

  /** In raw terms, the gas reading alone raises the alarm exactly for samples up to 2047. */
  lemma GasAlarmIffSampleAtMost2047(adc: AdcSample)
    requires adc >= 1
    ensures GasResistance(adc) > MIN_CO_DETECTION <==> adc <= 2047
  {
    var a := adc as real;
    if adc <= 2047 {
      DivisionDecreasing(40950.0, a, 2047.5);
      assert 40950.0 / 2047.5 == 20.0;
    } else {
      assert a >= 2048.0;
      DivisionDecreasing(40950.0, 2047.5, a);
      assert 40950.0 / 2047.5 == 20.0;
    }
  }

  /**
   * Inverse of the divider relation: the (real-valued) sample that produces
   * resistance `r`. It takes every resistance back to the sample it came from.
   */
  function SampleFor(r: real): (adc: real)
    requires r >= 0.0
    ensures 0.0 < adc <= ADC_MAX as real
  {
    RL_VALUE * (ADC_MAX as real) / (r + RL_VALUE)
  }

  lemma SampleForInvertsGasResistance(adc: AdcSample)
    requires adc >= 1
    ensures SampleFor(GasResistance(adc)) == adc as real
  {
    var a := adc as real;
    var rs := GasResistance(adc);
    assert rs + RL_VALUE == 40950.0 / a;
    assert 40950.0 / (40950.0 / a) == a;
  }

  /** The other direction: a sample produced by `SampleFor(r)` converts back to `r`. */
  lemma GasResistanceInvertsSampleFor(r: real, adc: AdcSample)
    requires r >= 0.0
    requires adc >= 1 && SampleFor(r) == adc as real
    ensures GasResistance(adc) == r
  {
    var a := adc as real;
    assert a * (r + RL_VALUE) == 40950.0;
    assert 40950.0 / a == r + RL_VALUE;
  }

  /** The denominator 1/T0 + (1/BETA) * ln(R/R0) of the Beta equation. */
  function BetaDenominator(r: real, ln: real -> real): real
  {
    (1.0 / T0) + (1.0 / BETA) * ln(r / R0)
  }

  /**
   * Temperature in degrees Celsius of a thermistor of resistance `r`
   * (kilo-ohms). The result solves the Beta equation
   * 1/T = 1/T0 + ln(R/R0)/BETA for T in kelvin.
   */
  function BetaTemperature(r: real, ln: real -> real): (t: real)
    requires r > 0.0
    requires BetaDenominator(r, ln) != 0.0
    ensures (t + KELVIN_OFFSET) * BetaDenominator(r, ln) == 1.0
  {
    1.0 / BetaDenominator(r, ln) - KELVIN_OFFSET
  }

  /** Temperature read from a thermistor sample; full scale is excluded because the resistance is 0 there. */
  function Temperature(adc: AdcSample, ln: real -> real): (t: real)
    requires 1 <= adc <= ADC_MAX - 1
    requires BetaDenominator(ThermistorResistance(adc), ln) != 0.0
    ensures (t + KELVIN_OFFSET) * BetaDenominator(ThermistorResistance(adc), ln) == 1.0
  {
    BetaTemperature(ThermistorResistance(adc), ln)
  }

  ghost predicate StrictlyIncreasingOnPositives(ln: real -> real)
  {
    forall x: real, y: real :: 0.0 < x < y ==> ln(x) < ln(y)
  }

  /** At the nominal resistance R0 the thermistor reads the nominal 25 degrees Celsius. */
  lemma NominalResistanceReadsNominalTemperature(ln: real -> real)
    requires ln(1.0) == 0.0
    ensures BetaTemperature(R0, ln) == 25.0
  {
    assert BetaDenominator(R0, ln) == 1.0 / T0;
  }

  /**
   * NTC behaviour: with an increasing logarithm and a positive Beta
   * denominator, a larger resistance reads as a lower temperature.
   */
  lemma BetaTemperatureDecreasing(r1: real, r2: real, ln: real -> real)
    requires StrictlyIncreasingOnPositives(ln)
    requires 0.0 < r1 < r2
    requires BetaDenominator(r1, ln) > 0.0
    ensures BetaDenominator(r2, ln) > 0.0
    ensures BetaTemperature(r1, ln) > BetaTemperature(r2, ln)
  {
    assert r1 / R0 < r2 / R0;
    assert ln(r1 / R0) < ln(r2 / R0);
    DivisionDecreasing(1.0, BetaDenominator(r1, ln), BetaDenominator(r2, ln));
  }

  /** A larger thermistor sample reads as a higher temperature. */
  lemma TemperatureIncreasing(a: AdcSample, b: AdcSample, ln: real -> real)
    requires StrictlyIncreasingOnPositives(ln)
    requires 1 <= a < b <= ADC_MAX - 1
    requires BetaDenominator(ThermistorResistance(b), ln) > 0.0
    ensures BetaDenominator(ThermistorResistance(a), ln) > 0.0
    ensures Temperature(a, ln) < Temperature(b, ln)
  {
    ThermistorResistanceDecreasing(a, b);
    BetaTemperatureDecreasing(ThermistorResistance(b), ThermistorResistance(a), ln);
  }
}

=== FILE: monitor.dfy ===
/**
 * The session manager and the monitoring loop: the MQTT connect routine,
 * the power-on sequence, one iteration of the main loop and the loop run
 * over any number of iterations. The network, the ADC and the MQTT client
 * library are outside the model: what they return is an input of the cycle
 * (an `Environment`), and what the firmware asks of them is recorded as a
 * trace of `Effect`s in the order it happens.
 */
module Monitor {
  import opened Config
  import opened Wrappers
  import opened Conversion
  import opened Alarm
  import opened Address

  /** An MQTT client instance: its identity and whether its `conn_state` is non-zero. */
  datatype Client = Client(id: nat, connected: bool)

  /**
   * The node's state between cycles: the client handle it holds (none
   * before the first connect), the identity the next new client gets, and
   * the GPIO output levels.
   */
  datatype Node = Node(client: Option<Client>, nextId: nat, pins: Pins)

  /** The telemetry object {"temperature": t, "co": c} before it is rendered as text. */
  datatype Payload = Payload(temperature: real, co: real)

  /** Requests the firmware makes of its collaborators. */
  datatype Effect =
    | NewClient(id: nat)
    | ConnectAttempt(client: nat, broker: Ip4, port: nat, ok: bool)
    | ReadTemperature(sample: AdcSample)
    | ReadGas(sample: AdcSample)
    | Actuate(state: AlarmState)
    | Publish(client: nat, topic: string, payload: Payload, qos: nat, retain: nat, ok: bool)
    | Sleep(ms: nat)

  datatype Step = Step(node: Node, trace: seq<Effect>)

  /** What the outside world decides during one cycle. */
  datatype Environment = Environment(
    dropped: bool,          // the transport closed the session since the previous cycle
    connectOk: bool,        // the MQTT connect call reports success
    tempSample: AdcSample,  // thermistor ADC reading
    gasSample: AdcSample,   // gas-sensor ADC reading
    publishOk: bool)        // the MQTT publish call reports success

  predicate ConnectAttempted(trace: seq<Effect>)
  {
    exists i :: 0 <= i < |trace| && trace[i].ConnectAttempt?
  }

  predicate ClientCreated(trace: seq<Effect>)
  {
    exists i :: 0 <= i < |trace| && trace[i].NewClient?
  }

  /**
   * The MQTT connect routine. It always replaces the held client with a
   * new instance first; then, if the broker name is not an IPv4 address,
   * it returns without attempting a connection, and otherwise it attempts
   * one on the fixed port. The new client's flag is set only by a
   * successful attempt.
   */
  function ConnectMqtt(n: Node, broker: string, connectOk: bool): (r: Step)
    ensures r.node.client.Some? && r.node.client.value.id == n.nextId
    ensures r.node.nextId == n.nextId + 1 && r.node.pins == n.pins
    ensures n.client.Some? && n.client.value.id < n.nextId ==> r.node.client != n.client
    ensures |r.trace| >= 1 && r.trace[0] == NewClient(n.nextId)
    ensures r.trace ==
      if Ip4AddrAton(broker).Some? then
        [NewClient(n.nextId), ConnectAttempt(n.nextId, Ip4AddrAton(broker).value, MQTT_PORT, connectOk)]
      else
        [NewClient(n.nextId)]
    ensures ConnectAttempted(r.trace) <==> Ip4AddrAton(broker).Some?
    ensures r.node.client.value.connected <==> Ip4AddrAton(broker).Some? && connectOk
    ensures forall i :: 0 <= i < |r.trace| && r.trace[i].ConnectAttempt? ==>
              r.trace[i] == ConnectAttempt(n.nextId, Ip4AddrAton(broker).value, MQTT_PORT, connectOk)
  {
    var created := Client(n.nextId, false);
    var n1 := n.(client := Some(created), nextId := n.nextId + 1);
    match Ip4AddrAton(broker)
    case None => Step(n1, [NewClient(created.id)])
    case Some(ip) =>
      var r := Step(n1.(client := Some(created.(connected := connectOk))),
                    [NewClient(created.id), ConnectAttempt(created.id, ip, MQTT_PORT, connectOk)]);
      assert r.trace[1].ConnectAttempt?;
      r
  }

  /** The shipped broker setting is a host name, so the connect routine never attempts a connection. */
  lemma ShippedBrokerIsNotAnAddress()
    ensures Ip4AddrAton(MQTT_BROKER_URL) == None
  {
    HostNameRejected(MQTT_BROKER_URL);
  }

  /**
   * Power-on sequence: output initialisation, a zeroed client record
   * holding no client, then one connect.
   */
  function Boot(pins: Pins, broker: string, connectOk: bool): (r: Step)
    ensures Invariant(r.node)
    ensures Decode(ReadOutputs(r.node.pins)) == Some(Safe)
  {
    InitIsSafe(pins);
    ConnectMqtt(Node(None, 0, InitHardware(pins)), broker, connectOk)
  }

  /**
   * What holds of the node at the top of every loop iteration: a client is
   * held, it is the most recently created one, and the actuators show one
   * of the two configurations the alarm handler writes.
   */
  predicate Invariant(n: Node)
  {
    && n.client.Some?
    && n.client.value.id + 1 == n.nextId
    && Consistent(n.pins)
  }

  /** The session is alive at the top of a cycle when the held client's flag survived the pause. */
  predicate Alive(n: Node, env: Environment)
    requires n.client.Some?
  {
    n.client.value.connected && !env.dropped
  }

  /**
   * The firmware divides by zero at sample 0 and takes the logarithm of 0
   * at full scale on the thermistor; the cycle is defined for samples that
   * avoid both.
   */
  predicate SamplesConvertible(env: Environment, ln: real -> real)
  {
    && 1 <= env.gasSample
    && 1 <= env.tempSample <= ADC_MAX - 1
    && BetaDenominator(ThermistorResistance(env.tempSample), ln) != 0.0
  }

  function TemperatureOf(env: Environment, ln: real -> real): real
    requires SamplesConvertible(env, ln)
  {
    Temperature(env.tempSample, ln)
  }

  function CoOf(env: Environment, ln: real -> real): real
    requires SamplesConvertible(env, ln)
  {
    GasResistance(env.gasSample)
  }

  lemma CreatedAppend(a: seq<Effect>, b: seq<Effect>)
    ensures ClientCreated(a + b) <==> ClientCreated(a) || ClientCreated(b)
  {
    if ClientCreated(a + b) {
      var i :| 0 <= i < |a + b| && (a + b)[i].NewClient?;
      if i >= |a| {
        assert b[i - |a|].NewClient?;
      }
    }
    if ClientCreated(a) {
      var i :| 0 <= i < |a| && a[i].NewClient?;
      assert (a + b)[i].NewClient?;
    }
    if ClientCreated(b) {
      var i :| 0 <= i < |b| && b[i].NewClient?;
      assert (a + b)[|a| + i].NewClient?;
    }
  }

  lemma AttemptedAppend(a: seq<Effect>, b: seq<Effect>)
    ensures ConnectAttempted(a + b) <==> ConnectAttempted(a) || ConnectAttempted(b)
  {
    if ConnectAttempted(a + b) {
      var i :| 0 <= i < |a + b| && (a + b)[i].ConnectAttempt?;
      if i >= |a| {
        assert b[i - |a|].ConnectAttempt?;
      }
    }
    if ConnectAttempted(a) {
      var i :| 0 <= i < |a| && a[i].ConnectAttempt?;
      assert (a + b)[i].ConnectAttempt?;
    }
    if ConnectAttempted(b) {
      var i :| 0 <= i < |b| && b[i].ConnectAttempt?;
      assert (a + b)[|a| + i].ConnectAttempt?;
    }
  }

  /**
   * The reconnect gate at the top of the loop: the connect routine runs
   * exactly when the session is not alive; otherwise the held client and
   * its flag stay as they are.
   */
  function Reconnect(n: Node, broker: string, env: Environment): (r: Step)
    requires n.client.Some?
    ensures r.node.client.Some? && r.node.pins == n.pins
    ensures ClientCreated(r.trace) <==> !Alive(n, env)
    ensures ConnectAttempted(r.trace) <==> !Alive(n, env) && Ip4AddrAton(broker).Some?
    ensures Alive(n, env) ==> r.node.client == n.client && r.node.nextId == n.nextId
    ensures !Alive(n, env) ==> r.node.client.value.id == n.nextId && r.node.nextId == n.nextId + 1
    ensures r.node.client.value.connected <==> Alive(n, env) || (Ip4AddrAton(broker).Some? && env.connectOk)
    ensures Alive(n, env) ==> r.trace == []
    ensures !Alive(n, env) ==>
              r.trace == if Ip4AddrAton(broker).Some? then
                           [NewClient(n.nextId), ConnectAttempt(n.nextId, Ip4AddrAton(broker).value, MQTT_PORT, env.connectOk)]
                         else
                           [NewClient(n.nextId)]
  {
    var held := n.client.value;
    var n0 := if env.dropped then n.(client := Some(held.(connected := false))) else n;
    if !n0.client.value.connected then
      ConnectMqtt(n0, broker, env.connectOk)
    else
      Step(n0, [])
  }

  /** Effects of the sensing half of a cycle, after the reconnect gate. */
  function SenseTrace(clientId: nat, env: Environment, ln: real -> real): (t: seq<Effect>)
    requires SamplesConvertible(env, ln)
    ensures !ClientCreated(t) && !ConnectAttempted(t)
  {
    var temp := Temperature(env.tempSample, ln);
    var co := GasResistance(env.gasSample);
    [ ReadTemperature(env.tempSample),
      ReadGas(env.gasSample),
      Actuate(Evaluate(temp, co)),
      Publish(clientId, MQTT_TOPIC, Payload(temp, co), PUBLISH_QOS, PUBLISH_RETAIN, env.publishOk),
      Sleep(CYCLE_SLEEP_MS) ]
  }

  /**
   * One iteration of the main loop: reconnect only when the session is
   * not alive, read temperature then gas, run the alarm handler, publish on
   * whichever client is then held, pause.
   */
  function Cycle(n: Node, broker: string, env: Environment, ln: real -> real): (r: Step)
    requires n.client.Some?
    requires SamplesConvertible(env, ln)
    ensures r.node.client.Some?
    ensures ClientCreated(r.trace) <==> !Alive(n, env)
    ensures ConnectAttempted(r.trace) <==> !Alive(n, env) && Ip4AddrAton(broker).Some?
    ensures Alive(n, env) ==> r.node.client == n.client && r.node.nextId == n.nextId
    ensures !Alive(n, env) ==> r.node.client.value.id == n.nextId && r.node.nextId == n.nextId + 1
    ensures r.node.client.value.connected <==> Alive(n, env) || (Ip4AddrAton(broker).Some? && env.connectOk)
    ensures Consistent(r.node.pins)
    ensures ReadOutputs(r.node.pins) == Apply(Evaluate(TemperatureOf(env, ln), CoOf(env, ln)))
    ensures |r.trace| >= 5
    ensures Alive(n, env) ==> |r.trace| == 5
    ensures !Alive(n, env) ==> r.trace[0] == NewClient(n.nextId)
    ensures r.trace[|r.trace| - 5..] ==
      [ ReadTemperature(env.tempSample),
        ReadGas(env.gasSample),
        Actuate(Evaluate(TemperatureOf(env, ln), CoOf(env, ln))),
        Publish(r.node.client.value.id, MQTT_TOPIC, Payload(TemperatureOf(env, ln), CoOf(env, ln)),
                PUBLISH_QOS, PUBLISH_RETAIN, env.publishOk),
        Sleep(CYCLE_SLEEP_MS) ]
  {
    var connect := Reconnect(n, broker, env);
    var n1 := connect.node.(pins := HandleAlarm(connect.node.pins, TemperatureOf(env, ln), CoOf(env, ln)));
    HandleAlarmConsistent(connect.node.pins, TemperatureOf(env, ln), CoOf(env, ln));
    var tail := SenseTrace(n1.client.value.id, env, ln);
    CreatedAppend(connect.trace, tail);
    AttemptedAppend(connect.trace, tail);
    var r := Step(n1, connect.trace + tail);
    assert r.trace[|r.trace| - 5..] == tail;
    r
  }

  /** A cycle started in the loop invariant ends in it. */
  lemma CyclePreservesInvariant(n: Node, broker: string, env: Environment, ln: real -> real)
    requires Invariant(n)
    requires SamplesConvertible(env, ln)
    ensures Invariant(Cycle(n, broker, env, ln).node)
  {
  }

  /**
   * Fail-safe property: the actuator levels after a cycle depend on the two
   * samples only, not on whether the session was alive, the connect
   * succeeded or the publish succeeded.
   */
  lemma ActuationIndependentOfNetwork(n: Node, m: Node, broker: string, e1: Environment, e2: Environment, ln: real -> real)
    requires n.client.Some? && m.client.Some?
    requires SamplesConvertible(e1, ln)
    requires e2.tempSample == e1.tempSample && e2.gasSample == e1.gasSample
    ensures SamplesConvertible(e2, ln)
    ensures ReadOutputs(Cycle(n, broker, e1, ln).node.pins) == ReadOutputs(Cycle(m, broker, e2, ln).node.pins)
  {
  }

  /** A failed publish is dropped: the node's state after the cycle is the same either way. */
  lemma PublishOutcomeDoesNotAffectState(n: Node, broker: string, env: Environment, ln: real -> real)
    requires n.client.Some?
    requires SamplesConvertible(env, ln)
    ensures Cycle(n, broker, env, ln).node == Cycle(n, broker, env.(publishOk := !env.publishOk), ln).node
  {
  }

  /**
   * Retry policy: after a cycle that found the session dead, the next cycle
   * finds it alive exactly when the broker name parsed, the connect
   * succeeded and the session was not dropped in between; a failed connect
   * therefore makes the next cycle reconnect again.
   */
  lemma NextCycleAliveAfterReconnect(n: Node, broker: string, e1: Environment, e2: Environment, ln: real -> real)
    requires n.client.Some?
    requires SamplesConvertible(e1, ln)
    requires !Alive(n, e1)
    ensures Alive(Cycle(n, broker, e1, ln).node, e2) <==>
              Ip4AddrAton(broker).Some? && e1.connectOk && !e2.dropped
  {
  }

  /** A live session stays live into the next cycle unless it is dropped. */
  lemma LiveSessionKept(n: Node, broker: string, e1: Environment, e2: Environment, ln: real -> real)
    requires n.client.Some?
    requires SamplesConvertible(e1, ln)
    requires Alive(n, e1)
    ensures Alive(Cycle(n, broker, e1, ln).node, e2) <==> !e2.dropped
  {
  }

  /** The main loop over a finite sequence of cycles. */
  function Run(n: Node, broker: string, envs: seq<Environment>, ln: real -> real): (r: Step)
    requires Invariant(n)
    requires forall i :: 0 <= i < |envs| ==> SamplesConvertible(envs[i], ln)
    ensures Invariant(r.node)
    ensures r.node.nextId >= n.nextId
    decreases |envs|
  {
    if |envs| == 0 then Step(n, [])
    else
      var first := Cycle(n, broker, envs[0], ln);
      CyclePreservesInvariant(n, broker, envs[0], ln);
      var rest := Run(first.node, broker, envs[1..], ln);
      Step(rest.node, first.trace + rest.trace)
  }

  /** One cycle with the shipped broker setting, from a client that is not connected. */
  lemma ShippedBrokerCycle(n: Node, env: Environment, ln: real -> real)
    requires n.client.Some? && !n.client.value.connected
    requires SamplesConvertible(env, ln)
    ensures !ConnectAttempted(Cycle(n, MQTT_BROKER_URL, env, ln).trace)
    ensures !Cycle(n, MQTT_BROKER_URL, env, ln).node.client.value.connected
    ensures Cycle(n, MQTT_BROKER_URL, env, ln).node.nextId == n.nextId + 1
  {
    ShippedBrokerIsNotAnAddress();
  }

  /**
   * With the shipped broker setting the node never attempts a connection,
   * its client never becomes connected, and every cycle replaces the held
   * client with a new one: after k cycles k more clients have been created.
   */
  lemma {:induction false} ShippedBrokerNeverConnects(n: Node, envs: seq<Environment>, ln: real -> real)
    requires Invariant(n) && !n.client.value.connected
    requires forall i :: 0 <= i < |envs| ==> SamplesConvertible(envs[i], ln)
    ensures !ConnectAttempted(Run(n, MQTT_BROKER_URL, envs, ln).trace)
    ensures !Run(n, MQTT_BROKER_URL, envs, ln).node.client.value.connected
    ensures Run(n, MQTT_BROKER_URL, envs, ln).node.nextId == n.nextId + |envs|
    decreases |envs|
  {
    if |envs| > 0 {
      var first := Cycle(n, MQTT_BROKER_URL, envs[0], ln);
      ShippedBrokerCycle(n, envs[0], ln);
      CyclePreservesInvariant(n, MQTT_BROKER_URL, envs[0], ln);
      var later := envs[1..];
      assert forall i :: 0 <= i < |later| ==> SamplesConvertible(later[i], ln) by {
        forall i | 0 <= i < |later|
          ensures SamplesConvertible(later[i], ln)
        {
          assert later[i] == envs[i + 1];
        }
      }
      ShippedBrokerNeverConnects(first.node, later, ln);
      var rest := Run(first.node, MQTT_BROKER_URL, later, ln);
      assert Run(n, MQTT_BROKER_URL, envs, ln) == Step(rest.node, first.trace + rest.trace);
      AttemptedAppend(first.trace, rest.trace);
    }
  }

  /** From power-on, with the shipped broker setting, no cycle ever connects. */
  lemma ShippedFirmwareNeverConnects(pins: Pins, connectOk: bool, envs: seq<Environment>, ln: real -> real)
    requires forall i :: 0 <= i < |envs| ==> SamplesConvertible(envs[i], ln)
    ensures !ConnectAttempted(Boot(pins, MQTT_BROKER_URL, connectOk).trace)
    ensures !ConnectAttempted(Run(Boot(pins, MQTT_BROKER_URL, connectOk).node, MQTT_BROKER_URL, envs, ln).trace)
  {
    ShippedBrokerIsNotAnAddress();
    ShippedBrokerNeverConnects(Boot(pins, MQTT_BROKER_URL, connectOk).node, envs, ln);
  }
}

=== FILE: wrappers.dfy ===
/** Optional values, used where the firmware's collaborators can report "no result". */
module Wrappers {

  datatype Option<+T> = None | Some(value: T)
}
